=== FILE: README.md ===
# Cloudkick CLI dashboard: refresh logic in Dafny

This project models the pure, sequential logic inside the Cloudkick CLI, a
curses dashboard. The dashboard lists monitored nodes and charts the CPU,
memory and disk of the selected node. It covers three parts:

- **Screen geometry and navigation** (`main.py`). This covers the table cells,
  the horizontal bar of each chart and the filter that picks the wanted
  samples. It also covers cursor movement, the minimum-size check, the header
  and footer offsets and the tick counters that schedule refreshes. It models
  the guards that start a background fetch and the decision of what the node
  panel shows.
- **Thread completion** (`threads.py`). Each thread body is one atomic state
  transition. The node-list thread replaces `nodes` wholesale. The metrics
  thread stores the three fetched sample lists only if the selected node still
  has the id it fetched for. This is the stale-selection guard.
- **Normalisation and unit conversion** (`formatting.py`). This covers the
  chart percent of each family and the byte-to-MB and block-to-GB
  conversions, over exact reals.

The `Screen` object's fields become one immutable `Model.State` record:
`nodes`, `cursorPos`, `nodeMetrics`, `updatingMetrics` and `lastUpdated`. Two
more fields record whether each background thread is alive, and the metrics
fetch records the node id it captured. Exceptions the source raises become
values. A missing metric key is `MetricMissing` (Python's `KeyError`). A
`nodes[cursor_pos]` outside the list is `IndexOutOfRange` (`IndexError`). A
small terminal is `ScreenTooSmall`. In the main loop an exception ends `run`
(`Screen.Outcome.Crash`). Inside a thread it ends the thread before anything
is written.

Python semantics are followed where they matter:
- negative list indices count from the back (`Model.PyIndex`);
- `int()` truncates toward zero;
- Python 2 integer `/` floors;
- `str.center` puts the odd space on the left only when both the margin and the width are odd;
- `ljust`, `rjust` and `center` never truncate.

`System` composes the main-loop iteration with the two completions as an
interleaving transition system. It proves an invariant, the race guard and an
end-to-end scenario. `System.Next` is the program as written; `System.NextCorrected`
differs only in the metrics completion (see "## Findings").

Behaviour of the code worth knowing:
- `run` counts loop iterations and starts a thread every 300 (node list) or
  50 (metrics) iterations. Nothing else requests a refresh except `u` and the
  movement keys. A thread starts only when none of its kind is alive.
- Nothing clamps `cursor_pos` when the node list shrinks
  (`System.ShrunkListLeavesCursorBehind`). Page-down on an empty table
  sets it to -1 (`Screen.PageDownOnEmptyTable`). Python's negative indexing
  then selects the last node.
- A missing chart metric raises `KeyError` out of `_get_vertical_chart`. It
  does not draw an error text.
- A column is `int(max_x * width / 100)` wide. Text longer than the column is
  kept whole, not truncated.
- The bar fills `index <= w * percent / 100`, which is `floor(w * percent / 100) + 1`
  cells capped at `w`. So 0 percent still draws one `|`.
- The size check compares `max_y = rows - 2` with 24. The terminal therefore
  needs 26 rows.
- A failed metrics fetch raises inside the thread before `updating_metrics`
  is reset, so the flag stays raised.

## Model

| member | source | states |
|---|---|---|
| `Model.SelectedId` | threads.py:28 | `nodes[cursor_pos]['id']` exists exactly when the cursor is a valid Python index; it is the id of `nodes[cursor_pos]` for a non-negative cursor and of `nodes[len + cursor_pos]` for a negative one |
| `Formatting.Int` | formatting.py:4 | `int()` truncates toward zero: the result lies within one of the value, on the zero side |
| `Formatting.NormalizeCpu` | formatting.py:1-4 | the CPU percent plus the truncated idle value is 100; an idle value in [0, 100] gives a percent in [0, 100]; a missing key is a `KeyError` |
| `Formatting.NormalizeMem` | formatting.py:6-7 | the memory percent is the chart value truncated toward zero (the largest integer not above a non-negative value, the smallest not below a negative one); a value in [0, 100] gives a percent in [0, 100]; present iff the key is present |
| `Formatting.NormalizeDisk` | formatting.py:9-10 | the disk percent is the chart value truncated toward zero; a value in [0, 100] gives a percent in [0, 100]; present iff the key is present |
| `Formatting.NormalizeOnWholeValues` | formatting.py:3-10 | on a whole-number value n the three normalisations give 100 - n, n and n |
| `Formatting.NormalizeCpuExample` | formatting.py:3-4 | 37 percent idle is a 63 percent CPU chart |
| `Formatting.FormatCpuMetrics` | formatting.py:14-19 | user, system and idle percent come back unchanged and in that order |
| `Formatting.FormatMemMetrics` | formatting.py:21-25 | used and free MB times 1024*1024 give back the byte counts |
| `Formatting.FormatDiskMetrics` | formatting.py:27-35 | free and total GB times 1024^3 are free and total blocks times block size; free <= total when block size >= 0 and free blocks <= total blocks |
| `Formatting.FormatDiskExample` | formatting.py:27-35 | 1000 free and 2000 total blocks of 4096 bytes are 0.003814697265625 GB and 0.00762939453125 GB |
| `Layout.ColumnWidth` | main.py:293 | the cell width is the floor of max_x * width / 100 on non-negative operands, truncated toward zero otherwise |
| `Layout.LeftJustify` | main.py:297-298 | length max(width, len); the text is a prefix followed only by spaces |
| `Layout.RightJustify` | main.py:299-300 | length max(width, len); the text is a suffix preceded only by spaces |
| `Layout.CenterJustify` | main.py:295-296 | length max(width, len); the text sits between runs of spaces whose lengths differ by at most one; a shorter text gets `marg / 2` spaces on the left, plus one when both `marg = width - len` and `width` are odd |
| `Layout.ColumnString` | main.py:292-302 | the cell is max(column width, text length) long, never truncates, and is aligned left, right or centred as its spec says |
| `Layout.JoinColumnsLength` | main.py:206-213 | a joined table line is exactly as long as the sum of its cells |
| `Layout.TableRowFitsScreen` | main.py:32-37 | with the 35/25/25/15 row layout a node's line fits the screen width whenever every field fits its cell |
| `Layout.TableHeaderFitsScreen` | main.py:281-290 | on any screen at least 80 wide the upper-cased header labels fit their 36/26/24/14 cells and the header fits the width |
| `Layout.CenterOffset` | main.py:408-409 | a string no longer than the line starts and ends inside it, and its two margins differ by at most one |
| `Layout.RightOffset` | main.py:411-412 | a right-placed string ends exactly at the edge and starts inside the line iff it fits |
| `Layout.UpdateMaxSize` | main.py:330-334 | the usable height is the terminal height minus two; the width is the terminal width |
| `Layout.CheckMinScreenSize` | main.py:336-340 | the check fails iff max_x < 80 or max_y < 24, with the 80x24 error |
| `Layout.SizeCheckOnTerminal` | main.py:330-340 | on the terminal itself the check passes iff it has at least 80 columns and 26 rows |
| `Chart.WantedMetrics` | main.py:172-174 | a name is wanted iff it is the chart metric or one of the display metrics |
| `Chart.CollectWanted` | main.py:176-179 | a name is a key iff it is wanted and some sample reports it; its value is that of the last sample with the name |
| `Chart.LastIndex` | main.py:177-179 | reference for "the last sample with a name": -1 iff no sample reports it, otherwise a position with that name and no later one |
| `Chart.CollectedIsLastValue` | main.py:176-179 | every wanted, reported name is kept by the filter loop, with the value at `LastIndex`, the reference's answer |
| `Chart.ChartPercent` | formatting.py:1-10 | a chart value in [0, 100] gives a percent in [0, 100] for every family |
| `Chart.Normalize` | main.py:181 | the family's normalisation succeeds iff its chart metric is present, otherwise a `KeyError` for that metric; the percent is `100 - int(v)` for CPU and `int(v)` for memory and disk, where v is the chart metric's value |
| `Chart.FillCutoff` | main.py:185-187 | the cell test `100*index <= w*percent` holds exactly for the first `BarFill(w, percent)` positions |
| `Chart.Bar` | main.py:183-190 | the bar has max(w, 0) cells of `|` or space; the `|` cells are exactly a prefix of `BarFill` cells |
| `Chart.BarCount` | main.py:183-190 | the bar holds as many `|` as indices in [0, w) with `100*index <= w*percent`: w at 100 percent and above, one at 0 percent, none below 0 |
| `Chart.BuildBar` | main.py:183-190 | the cell-by-cell loop with w = max_x - 55 builds the bar whose `|` cells are the first `BarFill` positions |
| `Chart.LookupAll` | main.py:192 | the display values exist iff every display metric is present, come in display order, and otherwise the first missing name is the `KeyError` |
| `Chart.FormatValues` | main.py:193 | CPU values pass unchanged; memory values are MB of the byte counts; disk values are GB of blocks times block size |
| `Chart.VerticalChart` | main.py:170-196 | the chart exists iff the samples report the chart metric and every display metric; otherwise the `KeyError` names the chart metric when it is absent, and else the first absent display metric; the percent is the family's normalisation of the last chart-metric sample; the display values are the formatted last samples of the display metrics, in order; the bar is drawn for that percent |
| `Chart.ChartShown` | main.py:170-196 | with every wanted metric reported the chart exists, and its percent is the normalisation of the last chart-metric sample |
| `Chart.CpuChartValues` | main.py:176-193 | once `cpu_user` and `cpu_sys` are reported beside `cpu_idle`, the CPU chart exists, shows `100 - int(idle)` for the last `cpu_idle` sample and lists that idle value third |
| `Screen.MoveCursor` | main.py:360-375 | up and down move by one but stop at 0 and at the last line; page-up goes to 0 and page-down to the last line; up and down stay inside the table |
| `Screen.MoveCursorStaysInTable` | main.py:362-375 | every movement key keeps a cursor inside a non-empty table inside it |
| `Screen.UpUndoesDown` | main.py:363-369 | down then up returns to the start unless down stopped at the last line |
| `Screen.PageDownOnEmptyTable` | main.py:374-375 | page-down with no table lines sets the cursor to -1 |
| `Screen.UpdateNodeMetrics` | main.py:217-226 | a fetch starts only when none is in flight and nodes exist, and it captures the selected node's id; an out-of-list cursor raises `IndexError` there and nowhere else |
| `Screen.UpdateNodeList` | main.py:228-233 | a node-list fetch is in flight afterwards and nothing else changes |
| `Screen.HandleKeyEvent` | main.py:353-358 | `u` requests a metrics fetch, `q` or `Q` quits, every other character changes nothing |
| `Screen.HandleMovementKey` | main.py:360-378 | the cursor moves as `MoveCursor` says; `updating_metrics` is raised and a fetch starts for the newly selected node unless one is in flight or there are no nodes, in which case the fetch state is unchanged; it raises `IndexError` iff no fetch is in flight, nodes exist and the new cursor is not a valid index; nodes and metrics are untouched |
| `Screen.HandleEvent` | main.py:81-89 | a character goes to the key handler and a movement key to the movement handler; a resize fails iff the usable screen is under 80x24 and otherwise changes nothing; any other event changes nothing; only `q` and `Q` quit; no event changes nodes, metrics, `last_updated` or the node-list thread |
| `Screen.Tick` | main.py:91-100 | a refresh fires iff its counter equals 300 (node list) or 50 (metrics); the counters stay in [1, 300] and [1, 50] |
| `Screen.CountersClosedForm` | main.py:77-100 | after n iterations the counters are n mod 300 + 1 and n mod 50 + 1 |
| `Screen.RefreshSchedule` | main.py:91-100 | iteration k refreshes the node list iff 300 divides k and the metrics iff 50 divides k |
| `Screen.CountRefreshes` | main.py:91-100 | n iterations fire n div 300 node-list and n div 50 metrics refreshes |
| `Screen.Start` | main.py:77-78 | `run` starts a node-list fetch and both counters at 1 before the loop, and changes nothing else in the state |
| `Screen.Iteration` | main.py:79-101 | an iteration fails with the size error iff the terminal is under 80 columns or 26 rows; it advances the counters; when the node-list counter fires a list fetch is in flight afterwards, and when the metrics counter fires with nodes present a metrics fetch is; it never lowers `updating_metrics` and never writes nodes, metrics or `last_updated`; on a large enough terminal `q` and `Q` quit and nothing else does; only a movement key moves the cursor, as `MoveCursor` says; any fetch it starts captures the id of the node then selected; a node-list fetch starts only when its counter fires, and a metrics fetch only when its counter fires or on `u` or a movement key; past the size check it can only crash with `IndexError` from starting a metrics fetch |
| `Screen.Refresh` | main.py:91-97 | the node-list thread is alive afterwards iff its counter fired or it already was; a metrics fetch for the selected node starts only when its counter fired, none is in flight and nodes exist; `IndexError` exactly when that fetch's cursor is outside the list; nothing else changes |
| `Screen.NodePanel` | main.py:125-154 | placeholders iff no nodes or a family is missing; an out-of-list cursor then raises `IndexError`; "loading..." iff nodes, all families and the raised flag are there, for the selected node; with the flag down the panel is the selected node with the three charts of the stored samples, or the first chart's `KeyError` |
| `Threads.MetricsMap` | threads.py:29-30 | the stored map has exactly the keys cpu, mem and disk, each with its fetched list |
| `Threads.NodeListRun` | threads.py:11-12 | a fetched list replaces `nodes` wholesale, a failed fetch keeps it, and no other field changes |
| `Threads.NodeMetricsRun` | threads.py:21-32 | the metrics and timestamp are stored only if the selected id equals the captured id, and left alone if it differs; `updating_metrics` is lowered either way; a failed fetch or `IndexError` writes nothing; nodes and cursor never change |
| `Threads.NodeMetricsRunCorrected` | threads.py:26-32 | as above, but the flag is lowered only together with storing the selected node's freshly fetched metrics |
| `Threads.CompletionsKeepMetricsConsistent` | threads.py:11-32 | neither completion breaks "no metrics and no timestamp, or all three families and a timestamp" |
| `System.Next` | threads.py:21-32 | in the program as written, only a metrics completion whose captured id is still selected changes metrics or `last_updated`, and every successful metrics completion with a valid selection lowers `updating_metrics`; a loop step is exactly one `Screen.Iteration` |
| `System.NextCorrected` | threads.py:26-32 | with the corrected completion, `updating_metrics` comes down only together with metrics fetched for the node selected at that moment |
| `System.InitSatisfiesInv` | main.py:57-78 | the initial state with its first node-list fetch satisfies the invariant |
| `System.NextPreservesInv` | main.py:91-100 | every step, as written and corrected, keeps the counters in range and the metrics fields consistent |
| `System.MoveThenFetchShowsMetrics` | main.py:360-378 | a movement key and then a successful fetch stamp `last_updated`, store all three families, lower the flag and end "loading..." |
| `System.MovedSelectionDiscardsFetch` | threads.py:26-31 | a fetch that completes after the selection moved to another id leaves metrics and `last_updated` as they were |
| `System.StaleChartsAfterDiscard` | threads.py:28-32 | replays the race with samples reporting every metric: the step as written shows node B's panel with charts of node A's samples (CPU at 8 percent); the corrected step keeps B loading |
| `System.ShrunkListLeavesCursorBehind` | threads.py:11-12 | shrinking the list from five to two nodes keeps the cursor at 4, and the next metrics request raises `IndexError` |

## Left out

- Drawing is terminal I/O and is not modelled. This covers curses, colours, `_get_screen`, `_reset`, `addstr`, `_draw_header`, `_draw_footer`, `_draw_selection` and the exact texts drawn.
- Thread scheduling, `is_alive`, the `daemon` flag and real interleavings are left out. Each thread body is one atomic step, and `System` interleaves those steps with whole loop iterations.
- The `Connection` client, `validate_credentials`, option parsing, the signal handlers and the `__main__` block are network, command-line and OS plumbing. Fetch results are parameters.
- `datetime` formatting, the chart text template and the `str()`/`float()` round trip of display values are string formatting of floats and clocks. Timestamps are opaque integers.
- Float rounding is left out. Column width, bar test and unit conversions are exact integers or reals, and IEEE rounding can differ from them at exact multiples.
- Row visibility (`coord_y = max_y * 0.55 + index + 2`) is float screen geometry. The number of drawn table lines is a parameter (`rowCount`).
- `time.sleep` is left out. Ticks are counted, not timed.
- Metric values arriving as text are not modelled. Values are numbers, so `int("37.5")` raising `ValueError` is not covered.
- Node records are datatypes with every field present, so a missing node field is not modelled.
- `constants.py` is a duplicate table that `main.py` never imports, and `ScreenLine` is unused.
- `Screen.Iteration`: does not include the exceptions the redraw's `_draw_node_data` can raise. `Screen.NodePanel` models those separately.
- `Screen.HandleEvent`: a resize redraw re-checks the size the iteration already read, rather than querying the terminal again.

## Findings

| source | as written | input that shows it | evidently intended | confidence | as-written member | corrected member |
|---|---|---|---|---|---|---|
| threads.py:28-32 | `updating_metrics = False` runs even when a result is discarded because the selection moved | nodes A and B; A's metrics stored; a second fetch for A running; the user presses down to B; the fetch returns | keep "loading..." until metrics for the selected node are stored, instead of showing A's charts under B's name | medium, not executed | `System.StaleChartsAfterDiscard` | `Threads.NodeMetricsRunCorrected` |

`System.Next` and `Threads.NodeMetricsRun` keep the step as written; `System.NextCorrected` composes the corrected step.

=== FILE: chart.dfy ===
/**
 The per-family chart of the node panel (`_get_vertical_chart`): the
 `NODE_METRICS` table, the filter that keeps the wanted samples, the
 normalised percent, the horizontal bar and the formatted display values.
 */
module Chart {
  import opened Wrappers
  import opened Model
  import opened Formatting
  import Layout

  /** Columns of the screen not given to the bar. */
  const ChartMargin: int := 55

  /** `NODE_METRICS[check]['chart_metric']`. */
  function ChartMetric(f: Family): string {
    match f
    case Cpu => "cpu_idle"
    case Mem => "mem_percent_used"
    case Disk => "capacity"
  }

  /** `NODE_METRICS[check]['metrics']`, in the order the format function takes them. */
  function DisplayMetrics(f: Family): seq<string> {
    match f
    case Cpu => ["cpu_user", "cpu_sys", "cpu_idle"]
    case Mem => ["mem_used", "mem_free"]
    case Disk => ["bsize", "bfree", "blocks"]
  }

  /** `display_metrics + [chart_metric]`, the names the filter keeps. */
  function WantedMetrics(f: Family): (r: seq<string>)
    ensures ChartMetric(f) in r
    ensures forall i :: 0 <= i < |DisplayMetrics(f)| ==> DisplayMetrics(f)[i] in r
    ensures forall k :: k in r <==> k == ChartMetric(f) || k in DisplayMetrics(f)
  {
    DisplayMetrics(f) + [ChartMetric(f)]
  }

  /** Some sample carries the name `k`. */
  predicate Reported(samples: seq<Sample>, k: string) {
    exists i :: 0 <= i < |samples| && samples[i].name == k
  }

  /** No sample after position `i` carries the name of sample `i`. */
  predicate LastOfName(samples: seq<Sample>, i: int)
    requires 0 <= i < |samples|
  {
    forall j :: i < j < |samples| ==> samples[j].name != samples[i].name
  }

  /**
   The loop that builds `node_metrics`: each sample whose name is wanted is
   stored under that name, a later sample overwriting an earlier one.
   */
  function CollectWanted(samples: seq<Sample>, wanted: seq<string>): (r: map<string, real>)
    ensures forall k :: k in r <==> k in wanted && Reported(samples, k)
    ensures forall i :: 0 <= i < |samples| && samples[i].name in wanted && LastOfName(samples, i) ==>
      samples[i].name in r && r[samples[i].name] == samples[i].value
    decreases |samples|
  {
    if |samples| == 0 then map[]
    else
      var init := samples[..|samples| - 1];
      var last := samples[|samples| - 1];
      var m := CollectWanted(init, wanted);
      var r := if last.name in wanted then m[last.name := last.value] else m;
      SplitLast(samples);
      assert forall i :: 0 <= i < |samples| && samples[i].name in wanted && LastOfName(samples, i) ==>
        samples[i].name in r && r[samples[i].name] == samples[i].value by {
        forall i | 0 <= i < |samples| && samples[i].name in wanted && LastOfName(samples, i)
          ensures samples[i].name in r && r[samples[i].name] == samples[i].value
        {
          if i < |samples| - 1 {
            assert samples[|samples| - 1].name != samples[i].name;
            assert init[i] == samples[i] && LastOfName(init, i);
          }
        }
      }
      r
  }

  /** Splitting off the last sample: names reported and last occurrences of the rest. */
  lemma SplitLast(samples: seq<Sample>)
    requires |samples| > 0
    ensures var init := samples[..|samples| - 1];
      && (forall k :: Reported(samples, k) <==> Reported(init, k) || k == samples[|samples| - 1].name)
      && (forall i :: 0 <= i < |init| && LastOfName(samples, i) ==> init[i] == samples[i] && LastOfName(init, i))
  {
    var init := samples[..|samples| - 1];
    var last := samples[|samples| - 1];
    forall k | Reported(samples, k) && k != last.name
      ensures Reported(init, k)
    {
      var i :| 0 <= i < |samples| && samples[i].name == k;
      assert init[i].name == k;
    }
    forall k | Reported(init, k)
      ensures Reported(samples, k)
    {
      var i :| 0 <= i < |init| && init[i].name == k;
      assert samples[i].name == k;
    }
    assert Reported(samples, last.name) by {
      assert samples[|samples| - 1].name == last.name;
    }
  }

  /**
   The position of the last sample named `k`, searched from the back of the
   list, or -1 when no sample carries the name. A reference for what the
   filter loop leaves under `k`.
   */
  function LastIndex(samples: seq<Sample>, k: string): (i: int)
    ensures -1 <= i < |samples|
    ensures i == -1 <==> !Reported(samples, k)
    ensures i >= 0 ==> samples[i].name == k && LastOfName(samples, i)
    decreases |samples|
  {
    if |samples| == 0 then -1
    else if samples[|samples| - 1].name == k then |samples| - 1
    else
      SplitLast(samples);
      LastIndex(samples[..|samples| - 1], k)
  }

  /** Whatever the filter keeps under a name is the value of the last sample with that name. */
  lemma CollectedIsLastValue(samples: seq<Sample>, wanted: seq<string>, k: string)
    requires k in wanted && Reported(samples, k)
    ensures k in CollectWanted(samples, wanted)
    ensures 0 <= LastIndex(samples, k)
    ensures CollectWanted(samples, wanted)[k] == samples[LastIndex(samples, k)].value
  {
    var i := LastIndex(samples, k);
    assert samples[i].name in wanted;
  }

  /**
   The chart percent of a family for the chart metric's value `v`: the busy
   share `100 - int(v)` for CPU, `int(v)` for memory and disk.
   */
  function ChartPercent(f: Family, v: real): (p: int)
    ensures 0.0 <= v <= 100.0 ==> 0 <= p <= 100
  {
    if f == Cpu then 100 - Int(v) else Int(v)
  }

  /** `percent = normalization_function(node_metrics, chart_metric)`. */
  function Normalize(f: Family, metrics: map<string, real>): (r: Result<int>)
    ensures r.Ok? <==> ChartMetric(f) in metrics
    ensures r.Err? ==> r.error == MetricMissing(ChartMetric(f))
    ensures r.Ok? ==> r.value == ChartPercent(f, metrics[ChartMetric(f)])
  {
    match f
    case Cpu => NormalizeCpu(metrics, ChartMetric(f))
    case Mem => NormalizeMem(metrics, ChartMetric(f))
    case Disk => NormalizeDisk(metrics, ChartMetric(f))
  }

  /**
   The number of `'|'` cells the bar of width `w` shows for `percent`: the
   positions `index` in `[0, w)` with `index <= w / 100 * percent`.
   */
  function BarFill(w: int, percent: int): (k: int)
    ensures 0 <= k <= Layout.Max(w, 0)
  {
    if w <= 0 || w * percent < 0 then 0
    else if (w * percent) / 100 + 1 < w then (w * percent) / 100 + 1
    else w
  }

  /** `100 * index <= w * percent` picks out exactly the first `BarFill(w, percent)` positions. */
  lemma FillCutoff(w: int, percent: int, index: int)
    requires 0 <= index < w
    ensures 100 * index <= w * percent <==> index < BarFill(w, percent)
  {
    var p := w * percent;
    if p >= 0 {
      assert 100 * index <= p <==> index <= p / 100;
    }
  }

  /**
   The bar of `_get_vertical_chart`: `w` cells, `'|'` where
   `index <= (w / 100.0) * percent` holds and a space elsewhere.
   The filled cells form a prefix of exactly `BarFill(w, percent)` cells.
   */
  function Bar(w: int, percent: int): (r: string)
    ensures |r| == Layout.Max(w, 0)
    ensures forall i :: 0 <= i < |r| ==> (r[i] == '|' <==> i < BarFill(w, percent))
    ensures forall i :: 0 <= i < |r| ==> r[i] == '|' || r[i] == ' '
  {
    var r := seq(Layout.Max(w, 0), index => if 100 * index <= w * percent then '|' else ' ');
    assert forall i :: 0 <= i < |r| ==> (r[i] == '|' <==> i < BarFill(w, percent)) by {
      forall i | 0 <= i < |r|
        ensures r[i] == '|' <==> i < BarFill(w, percent)
      {
        FillCutoff(w, percent, i);
      }
    }
    r
  }

  /** How many cells of `s` are `'|'`. */
  function CountBars(s: string): (n: nat)
    ensures n <= |s|
  {
    if |s| == 0 then 0 else (if s[0] == '|' then 1 else 0) + CountBars(s[1..])
  }

  /** A string whose `'|'` cells are exactly its first `k` cells holds `k` of them. */
  lemma {:induction false} CountPrefixBars(s: string, k: int)
    requires 0 <= k <= |s|
    requires forall i :: 0 <= i < |s| ==> (s[i] == '|' <==> i < k)
    ensures CountBars(s) == k
    decreases |s|
  {
    if |s| > 0 {
      var t := s[1..];
      if k > 0 {
        assert s[0] == '|';
        assert forall i :: 0 <= i < |t| ==> (t[i] == '|' <==> i < k - 1) by {
          forall i | 0 <= i < |t| ensures t[i] == '|' <==> i < k - 1 {
            assert t[i] == s[i + 1];
          }
        }
        CountPrefixBars(t, k - 1);
      } else {
        assert s[0] != '|';
        assert forall i :: 0 <= i < |t| ==> (t[i] == '|' <==> i < 0) by {
          forall i | 0 <= i < |t| ensures t[i] == '|' <==> i < 0 {
            assert t[i] == s[i + 1];
          }
        }
        CountPrefixBars(t, 0);
      }
    }
  }

  /**
   The bar holds as many `'|'` as there are `index` in `[0, w)` with
   `100 * index <= w * percent`; a full bar from 100 percent on, and at
   least one `'|'` even at 0 percent on a positive width.
   */
  lemma BarCount(w: int, percent: int)
    ensures CountBars(Bar(w, percent)) == BarFill(w, percent)
    ensures w > 0 && percent >= 100 ==> CountBars(Bar(w, percent)) == w
    ensures w > 0 && percent == 0 ==> CountBars(Bar(w, percent)) == 1
    ensures percent < 0 ==> CountBars(Bar(w, percent)) == 0
  {
    CountPrefixBars(Bar(w, percent), BarFill(w, percent));
    if w > 0 && percent >= 100 {
      assert w * percent >= w * 100;
    }
    if w > 0 && percent < 0 {
      assert w * percent < 0;
    }
  }

  /** The bar-building loop exactly as the source runs it, cell by cell. */
  method BuildBar(maxX: int, percent: int) returns (lines: string)
    ensures |lines| == Layout.Max(maxX - ChartMargin, 0)
    ensures forall i :: 0 <= i < |lines| ==> (lines[i] == '|' <==> i < BarFill(maxX - ChartMargin, percent))
    ensures lines == Bar(maxX - ChartMargin, percent)
  {
    var w := maxX - ChartMargin;
    lines := "";
    var index := 0;
    while index < w
      invariant 0 <= index <= Layout.Max(w, 0)
      invariant |lines| == index
      invariant forall k :: 0 <= k < index ==> (lines[k] == '|' <==> 100 * k <= w * percent)
      invariant forall k :: 0 <= k < index ==> lines[k] == '|' || lines[k] == ' '
    {
      if 100 * index <= w * percent {
        lines := lines + "|";
      } else {
        lines := lines + " ";
      }
      index := index + 1;
    }
    forall i | 0 <= i < |lines|
      ensures lines[i] == '|' <==> i < BarFill(w, percent)
    {
      FillCutoff(w, percent, i);
    }
    var b := Bar(w, percent);
    assert |b| == |lines|;
    forall i | 0 <= i < |lines| ensures lines[i] == b[i] {
      FillCutoff(w, percent, i);
    }
  }

  /** `[node_metrics[m] for m in display_metrics]`: the first missing name raises `KeyError`. */
  function LookupAll(metrics: map<string, real>, keys: seq<string>): (r: Result<seq<real>>)
    ensures r.Ok? <==> forall i :: 0 <= i < |keys| ==> keys[i] in metrics
    ensures r.Ok? ==> |r.value| == |keys| && forall i :: 0 <= i < |keys| ==> r.value[i] == metrics[keys[i]]
    ensures r.Err? ==> exists i :: (0 <= i < |keys| && r.error == MetricMissing(keys[i]) && keys[i] !in metrics
                                    && forall j :: 0 <= j < i ==> keys[j] in metrics)
    decreases |keys|
  {
    if |keys| == 0 then Ok([])
    else if keys[0] !in metrics then Err(MetricMissing(keys[0]))
    else
      match LookupAll(metrics, keys[1..])
      case Ok(rest) => Ok([metrics[keys[0]]] + rest)
      case Err(e) =>
        assert exists i :: (1 <= i < |keys| && e == MetricMissing(keys[i]) && keys[i] !in metrics
                            && forall j :: 0 <= j < i ==> keys[j] in metrics) by {
          var i' :| 0 <= i' < |keys[1..]| && e == MetricMissing(keys[1..][i']) && keys[1..][i'] !in metrics
            && forall j :: 0 <= j < i' ==> keys[1..][j] in metrics;
          assert keys[1..][i'] == keys[i' + 1];
          forall j | 0 <= j < i' + 1 ensures keys[j] in metrics {
            if j > 0 { assert keys[j] == keys[1..][j - 1]; }
          }
        }
        Err(e)
  }

  /** `format_function(*display_values)` of the family, flattened to a sequence. */
  function FormatValues(f: Family, vals: seq<real>): (r: seq<real>)
    requires |vals| == |DisplayMetrics(f)|
    ensures f == Cpu ==> r == vals
    ensures f == Mem ==> |r| == 2 && r[0] * MiB == vals[0] && r[1] * MiB == vals[1]
    ensures f == Disk ==> |r| == 2 && r[0] * GiB == vals[1] * vals[0] && r[1] * GiB == vals[2] * vals[0]
  {
    match f
    case Cpu =>
      var t := FormatCpuMetrics(vals[0], vals[1], vals[2]);
      [t.0, t.1, t.2]
    case Mem =>
      var t := FormatMemMetrics(vals[0], vals[1]);
      [t.0, t.1]
    case Disk =>
      var t := FormatDiskMetrics(vals[0], vals[1], vals[2]);
      [t.0, t.1]
  }

  /** What one chart line shows: the bar, the percent and the formatted display values. */
  datatype ChartView = ChartView(bar: string, percent: int, display: seq<real>)

  /**
   `_get_vertical_chart(check, metrics)` without the final text formatting.
   It raises `KeyError` unless the samples report the chart metric and every
   display metric.
   */
  function VerticalChart(f: Family, samples: seq<Sample>, maxX: int): (r: Result<ChartView>)
    ensures r.Ok? <==> (Reported(samples, ChartMetric(f))
                        && forall i :: 0 <= i < |DisplayMetrics(f)| ==> Reported(samples, DisplayMetrics(f)[i]))
    ensures r.Err? ==> r.error.MetricMissing? && r.error.key in WantedMetrics(f) && !Reported(samples, r.error.key)
    ensures r.Ok? ==> r.value.bar == Bar(maxX - ChartMargin, r.value.percent)
    ensures r.Ok? ==> r.value.percent == ChartPercent(f, samples[LastIndex(samples, ChartMetric(f))].value)
    ensures r.Ok? ==> r.value.display == FormatValues(f, DisplayedValues(f, samples))
    ensures !Reported(samples, ChartMetric(f)) ==> r == Err(MetricMissing(ChartMetric(f)))
    ensures r.Err? && Reported(samples, ChartMetric(f)) ==>
      exists d :: (0 <= d < |DisplayMetrics(f)| && r.error == MetricMissing(DisplayMetrics(f)[d])
                   && forall e :: 0 <= e < d ==> Reported(samples, DisplayMetrics(f)[e]))
  {
    var metrics := CollectWanted(samples, WantedMetrics(f));
    match Normalize(f, metrics)
    case Err(e) => Err(e)
    case Ok(percent) =>
      match LookupAll(metrics, DisplayMetrics(f))
      case Err(e) => Err(e)
      case Ok(vals) =>
        CollectedIsLastValue(samples, WantedMetrics(f), ChartMetric(f));
        assert vals == DisplayedValues(f, samples) by {
          forall d | 0 <= d < |vals|
            ensures vals[d] == DisplayedValues(f, samples)[d]
          {
            CollectedIsLastValue(samples, WantedMetrics(f), DisplayMetrics(f)[d]);
          }
        }
        Ok(ChartView(Bar(maxX - ChartMargin, percent), percent, FormatValues(f, vals)))
  }

  /** The last reported value of each display metric, in display order. */
  function DisplayedValues(f: Family, samples: seq<Sample>): (vals: seq<real>)
    requires forall d :: 0 <= d < |DisplayMetrics(f)| ==> Reported(samples, DisplayMetrics(f)[d])
    ensures |vals| == |DisplayMetrics(f)|
    ensures forall d, i :: (0 <= d < |vals| && 0 <= i < |samples| && samples[i].name == DisplayMetrics(f)[d]
                            && LastOfName(samples, i)) ==> vals[d] == samples[i].value
  {
    seq(|DisplayMetrics(f)|, d requires 0 <= d < |DisplayMetrics(f)| => samples[LastIndex(samples, DisplayMetrics(f)[d])].value)
  }

  /**
   With every wanted metric reported the chart exists, and its percent and
   display values come from the last sample of each name.
   */
  lemma ChartShown(f: Family, samples: seq<Sample>, maxX: int)
    requires forall k :: k in WantedMetrics(f) ==> Reported(samples, k)
    ensures VerticalChart(f, samples, maxX).Ok?
    ensures forall i :: 0 <= i < |samples| && samples[i].name == ChartMetric(f) && LastOfName(samples, i) ==>
      VerticalChart(f, samples, maxX).value.percent == ChartPercent(f, samples[i].value)
  {
    assert forall i :: 0 <= i < |DisplayMetrics(f)| ==> DisplayMetrics(f)[i] in WantedMetrics(f);
    var i := LastIndex(samples, ChartMetric(f));
    assert 0 <= i;
  }

  /**
   A CPU chart exists once user and system samples are reported beside the
   idle one; it shows the busy share of the last `cpu_idle` sample and lists
   that idle value third.
   */
  lemma CpuChartValues(samples: seq<Sample>, maxX: int, i: int)
    requires 0 <= i < |samples| && samples[i].name == "cpu_idle" && LastOfName(samples, i)
    requires Reported(samples, "cpu_user") && Reported(samples, "cpu_sys")
    ensures VerticalChart(Cpu, samples, maxX).Ok?
    ensures VerticalChart(Cpu, samples, maxX).value.percent == 100 - Int(samples[i].value)
    ensures VerticalChart(Cpu, samples, maxX).value.display[2] == samples[i].value
  {
    assert Reported(samples, "cpu_idle");
    assert DisplayMetrics(Cpu)[2] == "cpu_idle";
  }
}

=== FILE: formatting.dfy ===
/**
 Chart normalisation and display-value formatting of the three metric
 families. Values are exact reals; Python's `int()` is truncation toward zero.
 */
module Formatting {
  import opened Wrappers

  const MiB: real := 1024.0 * 1024.0
  const GiB: real := 1024.0 * 1024.0 * 1024.0

  /** Python's `int(x)` on a number: drops the fractional part toward zero. */
  function Int(x: real): (r: int)
    ensures x >= 0.0 ==> 0 <= r && r as real <= x < r as real + 1.0
    ensures x < 0.0 ==> r <= 0 && r as real - 1.0 < x <= r as real
  {
    if x >= 0.0 then x.Floor else -((-x).Floor)
  }

  /** `int()` leaves a whole number as it is. */
  lemma IntOfWhole(n: int)
    ensures Int(n as real) == n
  {
    if n < 0 {
      assert (-(n as real)).Floor == -n;
    }
  }

  /**
   CPU chart percent: the busy share `100 - idle`. A missing chart key raises
   `KeyError`. For an idle value within `[0, 100]` the percent is within `[0, 100]`.
   */
  function NormalizeCpu(metrics: map<string, real>, chartMetric: string): (r: Result<int>)
    ensures r.Ok? <==> chartMetric in metrics
    ensures r.Err? ==> r.error == MetricMissing(chartMetric)
    ensures r.Ok? ==> r.value + Int(metrics[chartMetric]) == 100
    ensures r.Ok? && 0.0 <= metrics[chartMetric] <= 100.0 ==> 0 <= r.value <= 100
  {
    if chartMetric in metrics then Ok(100 - Int(metrics[chartMetric]))
    else Err(MetricMissing(chartMetric))
  }

  /**
   Memory chart percent: the supplied percent-used value truncated toward
   zero, so a value within `[0, 100]` gives a percent within `[0, 100]`.
   */
  function NormalizeMem(metrics: map<string, real>, chartMetric: string): (r: Result<int>)
    ensures r.Ok? <==> chartMetric in metrics
    ensures r.Err? ==> r.error == MetricMissing(chartMetric)
    ensures r.Ok? && metrics[chartMetric] >= 0.0 ==>
      r.value as real <= metrics[chartMetric] < r.value as real + 1.0
    ensures r.Ok? && metrics[chartMetric] < 0.0 ==>
      r.value as real - 1.0 < metrics[chartMetric] <= r.value as real
    ensures r.Ok? && 0.0 <= metrics[chartMetric] <= 100.0 ==> 0 <= r.value <= 100
  {
    if chartMetric in metrics then Ok(Int(metrics[chartMetric]))
    else Err(MetricMissing(chartMetric))
  }

  /**
   Disk chart percent: the supplied capacity value truncated toward zero, so
   a value within `[0, 100]` gives a percent within `[0, 100]`.
   */
  function NormalizeDisk(metrics: map<string, real>, chartMetric: string): (r: Result<int>)
    ensures r.Ok? <==> chartMetric in metrics
    ensures r.Err? ==> r.error == MetricMissing(chartMetric)
    ensures r.Ok? && metrics[chartMetric] >= 0.0 ==>
      r.value as real <= metrics[chartMetric] < r.value as real + 1.0
    ensures r.Ok? && metrics[chartMetric] < 0.0 ==>
      r.value as real - 1.0 < metrics[chartMetric] <= r.value as real
    ensures r.Ok? && 0.0 <= metrics[chartMetric] <= 100.0 ==> 0 <= r.value <= 100
  {
    if chartMetric in metrics then Ok(Int(metrics[chartMetric]))
    else Err(MetricMissing(chartMetric))
  }

  /** On whole-number samples the three normalisations are `100 - idle`, identity, identity. */
  lemma NormalizeOnWholeValues(metrics: map<string, real>, key: string, n: int)
    requires key in metrics && metrics[key] == n as real
    ensures NormalizeCpu(metrics, key) == Ok(100 - n)
    ensures NormalizeMem(metrics, key) == Ok(n)
    ensures NormalizeDisk(metrics, key) == Ok(n)
  {
    IntOfWhole(n);
  }

  /** CPU display values: user, system and idle percent, unchanged and in that order. */
  function FormatCpuMetrics(user: real, sys: real, idle: real): (r: (real, real, real))
    ensures r.0 == user && r.1 == sys && r.2 == idle
  {
    (user, sys, idle)
  }

  /** Memory display values: used and free bytes, each in MB. */
  function FormatMemMetrics(used: real, free: real): (r: (real, real))
    ensures r.0 * MiB == used
    ensures r.1 * MiB == free
  {
    (used / 1024.0 / 1024.0, free / 1024.0 / 1024.0)
  }

  /**
   Disk display values: free and total space in GB, from the block size and
   the free and total block counts. Free never exceeds total when the block
   size is non-negative and the free count is at most the total count.
   */
  function FormatDiskMetrics(blockSize: real, blocksFree: real, blocksTotal: real): (r: (real, real))
    ensures r.0 * GiB == blocksFree * blockSize
    ensures r.1 * GiB == blocksTotal * blockSize
    ensures blockSize >= 0.0 && blocksFree <= blocksTotal ==> r.0 <= r.1
  {
    var freeGb := (blocksFree * blockSize) / 1024.0 / 1024.0 / 1024.0;
    var totalGb := (blocksTotal * blockSize) / 1024.0 / 1024.0 / 1024.0;
    MulMonotone(blocksFree, blocksTotal, blockSize);
    (freeGb, totalGb)
  }

  lemma MulMonotone(a: real, b: real, c: real)
    ensures a <= b && c >= 0.0 ==> a * c <= b * c
  {
    if a <= b && c >= 0.0 {
      assert (b - a) * c >= 0.0;
    }
  }

  /** 1000 free and 2000 total blocks of 4096 bytes are about 0.0038 GB and 0.0076 GB. */
  lemma FormatDiskExample()
    ensures FormatDiskMetrics(4096.0, 1000.0, 2000.0) == (0.003814697265625, 0.00762939453125)
  {
  }

  /** 37 % idle draws a 63 % CPU chart. */
  lemma NormalizeCpuExample()
    ensures NormalizeCpu(map["cpu_idle" := 37.0], "cpu_idle") == Ok(63)
  {
    IntOfWhole(37);
  }
}

=== FILE: layout.dfy ===
/**
 Screen geometry: fixed-width table cells, the node table's column layout,
 header/footer placement offsets and the minimum-size check.
 */
module Layout {
  import opened Wrappers

  const ScreenMinX: int := 80
  const ScreenMinY: int := 24

  datatype Align = Left | Center | Right

  /** A column of the node table: its share of the screen width in percent and its alignment. */
  datatype ColumnSpec = ColumnSpec(width: int, align: Align)

  function Max(a: int, b: int): int {
    if a < b then b else a
  }

  function Spaces(n: nat): (r: string)
    ensures |r| == n && AllSpaces(r)
  {
    seq(n, _ => ' ')
  }

  predicate AllSpaces(s: string) {
    forall i :: 0 <= i < |s| ==> s[i] == ' '
  }

  /**
   `int(max_x * (width / 100.0))`: the column's share of the screen width,
   truncated toward zero. On non-negative operands it is the floor of
   `max_x * width / 100`.
   */
  function ColumnWidth(maxX: int, pct: int): (w: int)
    ensures maxX * pct >= 0 ==> 0 <= w && w * 100 <= maxX * pct < (w + 1) * 100
    ensures maxX * pct < 0 ==> w <= 0 && (w - 1) * 100 < maxX * pct <= w * 100
  {
    var p := maxX * pct;
    if p >= 0 then p / 100 else -((-p) / 100)
  }

  /** Python's `text.ljust(width)`: the text first, spaces after it, never truncated. */
  function LeftJustify(text: string, width: int): (r: string)
    ensures |r| == Max(width, |text|)
    ensures r[..|text|] == text && AllSpaces(r[|text|..])
  {
    if |text| >= width then text else text + Spaces(width - |text|)
  }

  /** Python's `text.rjust(width)`: spaces first, the text last, never truncated. */
  function RightJustify(text: string, width: int): (r: string)
    ensures |r| == Max(width, |text|)
    ensures r[|r| - |text|..] == text && AllSpaces(r[..|r| - |text|])
  {
    if |text| >= width then text else Spaces(width - |text|) + text
  }

  /**
   Python's `text.center(width)`: CPython pads `marg = width - len` spaces,
   putting `marg / 2` on the left plus one more when both `marg` and `width`
   are odd. The two paddings never differ by more than one space.
   */
  function CenterJustify(text: string, width: int): (r: string)
    ensures |r| == Max(width, |text|)
    ensures exists left :: 0 <= left <= |r| - |text| && Centered(r, text, left)
    ensures |text| < width ==>
      var marg := width - |text|;
      Centered(r, text, marg / 2 + (if marg % 2 == 1 && width % 2 == 1 then 1 else 0))
  {
    if |text| >= width then
      assert Centered(text, text, 0) by {
        assert text[..0] == [] && text[|text|..] == [];
      }
      text
    else
      var marg := width - |text|;
      var left := marg / 2 + (if marg % 2 == 1 && width % 2 == 1 then 1 else 0);
      var r := Spaces(left) + text + Spaces(marg - left);
      assert Centered(r, text, left) by {
        assert r[..left] == Spaces(left);
        assert r[left..left + |text|] == text;
        assert r[left + |text|..] == Spaces(marg - left);
      }
      r
  }

  /** `r` holds `text` after `left` spaces and before a trailing run of spaces of almost the same size. */
  predicate Centered(r: string, text: string, left: int)
    requires 0 <= left <= |r| - |text|
  {
    && r[left..left + |text|] == text
    && AllSpaces(r[..left])
    && AllSpaces(r[left + |text|..])
    && -1 <= (|r| - |text| - left) - left <= 1
  }

  /**
   `_get_table_column_string`: the text in a cell as wide as the column's share
   of the screen, aligned as asked; a text wider than the cell is kept whole.
   */
  function ColumnString(text: string, maxX: int, spec: ColumnSpec): (r: string)
    ensures |r| == Max(ColumnWidth(maxX, spec.width), |text|)
    ensures spec.align == Left ==> r[..|text|] == text && AllSpaces(r[|text|..])
    ensures spec.align == Right ==> r[|r| - |text|..] == text && AllSpaces(r[..|r| - |text|])
    ensures spec.align == Center ==> exists left :: 0 <= left <= |r| - |text| && Centered(r, text, left)
  {
    var width := ColumnWidth(maxX, spec.width);
    match spec.align
    case Center => CenterJustify(text, width)
    case Left => LeftJustify(text, width)
    case Right => RightJustify(text, width)
  }

  /** The cells of one table line, concatenated (`''.join(columns)`). */
  function JoinColumns(texts: seq<string>, specs: seq<ColumnSpec>, maxX: int): (r: string)
    requires |texts| == |specs|
    decreases |texts|
  {
    if |texts| == 0 then ""
    else ColumnString(texts[0], maxX, specs[0]) + JoinColumns(texts[1..], specs[1..], maxX)
  }

  /** The width a table line occupies: each cell is its column's width or its text's length. */
  function LineWidth(texts: seq<string>, specs: seq<ColumnSpec>, maxX: int): int
    requires |texts| == |specs|
    decreases |texts|
  {
    if |texts| == 0 then 0
    else Max(ColumnWidth(maxX, specs[0].width), |texts[0]|) + LineWidth(texts[1..], specs[1..], maxX)
  }

  function SumWidths(specs: seq<ColumnSpec>): int
    decreases |specs|
  {
    if |specs| == 0 then 0 else specs[0].width + SumWidths(specs[1..])
  }

  function SumColumnWidths(specs: seq<ColumnSpec>, maxX: int): int
    decreases |specs|
  {
    if |specs| == 0 then 0 else ColumnWidth(maxX, specs[0].width) + SumColumnWidths(specs[1..], maxX)
  }

  predicate FitsColumns(texts: seq<string>, specs: seq<ColumnSpec>, maxX: int)
    requires |texts| == |specs|
  {
    forall i :: 0 <= i < |texts| ==> |texts[i]| <= ColumnWidth(maxX, specs[i].width)
  }

  /** A joined line is exactly as long as the sum of its cells. */
  lemma {:induction false} JoinColumnsLength(texts: seq<string>, specs: seq<ColumnSpec>, maxX: int)
    requires |texts| == |specs|
    ensures |JoinColumns(texts, specs, maxX)| == LineWidth(texts, specs, maxX)
    decreases |texts|
  {
    if |texts| > 0 {
      JoinColumnsLength(texts[1..], specs[1..], maxX);
    }
  }

  /** When every text fits its cell, the line is as wide as the column widths together. */
  lemma {:induction false} FittingLineWidth(texts: seq<string>, specs: seq<ColumnSpec>, maxX: int)
    requires |texts| == |specs| && FitsColumns(texts, specs, maxX)
    ensures LineWidth(texts, specs, maxX) == SumColumnWidths(specs, maxX)
    decreases |texts|
  {
    if |texts| > 0 {
      assert |texts[0]| <= ColumnWidth(maxX, specs[0].width);
      assert FitsColumns(texts[1..], specs[1..], maxX) by {
        forall i | 0 <= i < |texts[1..]|
          ensures |texts[1..][i]| <= ColumnWidth(maxX, specs[1..][i].width)
        {
          assert texts[1..][i] == texts[i + 1] && specs[1..][i] == specs[i + 1];
        }
      }
      FittingLineWidth(texts[1..], specs[1..], maxX);
    }
  }

  /** Truncating each column's share never adds up to more than the shares themselves. */
  lemma {:induction false} ColumnWidthsBounded(specs: seq<ColumnSpec>, maxX: int)
    requires maxX >= 0
    requires forall i :: 0 <= i < |specs| ==> specs[i].width >= 0
    ensures SumColumnWidths(specs, maxX) * 100 <= maxX * SumWidths(specs)
    decreases |specs|
  {
    if |specs| > 0 {
      var p := specs[0].width;
      assert p >= 0;
      assert maxX * p >= 0 by { NonNegMul(maxX, p); }
      ColumnWidthsBounded(specs[1..], maxX);
      assert maxX * SumWidths(specs) == maxX * p + maxX * SumWidths(specs[1..]) by {
        Distribute(maxX, p, SumWidths(specs[1..]));
      }
    }
  }

  lemma NonNegMul(a: int, b: int)
    requires a >= 0 && b >= 0
    ensures a * b >= 0
  {
  }

  lemma Distribute(a: int, b: int, c: int)
    ensures a * (b + c) == a * b + a * c
  {
  }

  /** `NODE_TABLE_ROWS`: name, IP address, provider and status cells, all centred. */
  const NodeTableRows: seq<ColumnSpec> :=
    [ColumnSpec(35, Center), ColumnSpec(25, Center), ColumnSpec(25, Center), ColumnSpec(15, Center)]

  /** `NODE_TABLE_COLUMNS`: the header's cells, all centred. */
  const NodeTableColumns: seq<ColumnSpec> :=
    [ColumnSpec(36, Center), ColumnSpec(26, Center), ColumnSpec(24, Center), ColumnSpec(14, Center)]

  /** The header labels, already upper-cased as `_draw_table_header` shows them. */
  const NodeTableLabels: seq<string> := ["NAME", "SERVER IP", "PROVIDER", "STATUS"]

  /** The table line of one node. */
  function TableRow(name: string, ipaddress: string, providerName: string, status: string, maxX: int): (r: string)
  {
    JoinColumns([name, ipaddress, providerName, status], NodeTableRows, maxX)
  }

  /** The table's header line. */
  function TableHeader(maxX: int): string {
    JoinColumns(NodeTableLabels, NodeTableColumns, maxX)
  }

  /** A line of cells fits the screen width whenever each text fits its cell and the shares add up to 100. */
  lemma FittingLineFitsScreen(texts: seq<string>, specs: seq<ColumnSpec>, maxX: int)
    requires maxX >= 0 && |texts| == |specs| && FitsColumns(texts, specs, maxX)
    requires forall i :: 0 <= i < |specs| ==> specs[i].width >= 0
    requires SumWidths(specs) == 100
    ensures |JoinColumns(texts, specs, maxX)| <= maxX
  {
    JoinColumnsLength(texts, specs, maxX);
    FittingLineWidth(texts, specs, maxX);
    ColumnWidthsBounded(specs, maxX);
  }

  lemma RowSharesAddUp()
    ensures SumWidths(NodeTableRows) == 100
  {
    assert NodeTableRows[1..][1..][1..][1..] == [];
  }

  lemma HeaderSharesAddUp()
    ensures SumWidths(NodeTableColumns) == 100
  {
    assert NodeTableColumns[1..][1..][1..][1..] == [];
  }

  /** A node's table line fits the screen width whenever each of its fields fits its cell. */
  lemma TableRowFitsScreen(name: string, ipaddress: string, providerName: string, status: string, maxX: int)
    requires maxX >= 0
    requires FitsColumns([name, ipaddress, providerName, status], NodeTableRows, maxX)
    ensures |TableRow(name, ipaddress, providerName, status, maxX)| <= maxX
  {
    RowSharesAddUp();
    FittingLineFitsScreen([name, ipaddress, providerName, status], NodeTableRows, maxX);
  }

  /** On a screen at least 80 wide every header label fits its cell. */
  lemma HeaderLabelsFit(maxX: int)
    requires maxX >= ScreenMinX
    ensures FitsColumns(NodeTableLabels, NodeTableColumns, maxX)
  {
    assert ColumnWidth(maxX, 36) >= 28;
    assert ColumnWidth(maxX, 26) >= 20;
    assert ColumnWidth(maxX, 24) >= 19;
    assert ColumnWidth(maxX, 14) >= 11;
  }

  /** On any screen that passes the size check, the header labels fit and the header fits the width. */
  lemma TableHeaderFitsScreen(maxX: int)
    requires maxX >= ScreenMinX
    ensures |TableHeader(maxX)| <= maxX
  {
    HeaderLabelsFit(maxX);
    HeaderSharesAddUp();
    FittingLineFitsScreen(NodeTableLabels, NodeTableColumns, maxX);
  }

  /**
   `_get_center_offset` with Python 2 floor division: a string no longer than
   the line starts inside it, ends inside it, and its two margins differ by at most one.
   */
  function CenterOffset(maxOffset: int, stringLength: int): (r: int)
    ensures 0 <= stringLength <= maxOffset ==>
      0 <= r && r + stringLength <= maxOffset && -1 <= (maxOffset - (r + stringLength)) - r <= 1
  {
    maxOffset / 2 - stringLength / 2
  }

  /** `_get_right_offset`: the string ends exactly at the right edge, starting inside the line iff it fits. */
  function RightOffset(maxOffset: int, stringLength: int): (r: int)
    ensures r + stringLength == maxOffset
    ensures r >= 0 <==> stringLength <= maxOffset
  {
    maxOffset - stringLength
  }

  /** The usable screen as `_update_max_size` records it: two rows are kept back from the height. */
  datatype Size = Size(maxY: int, maxX: int)

  function UpdateMaxSize(rows: int, cols: int): (sz: Size)
    ensures sz.maxY + 2 == rows && sz.maxX == cols
  {
    Size(rows - 2, cols)
  }

  /** `_check_min_screen_size`: raises unless the usable screen is at least 80 by 24. */
  function CheckMinScreenSize(sz: Size): (r: Result<Size>)
    ensures r.Err? <==> sz.maxX < ScreenMinX || sz.maxY < ScreenMinY
    ensures r.Err? ==> r.error == ScreenTooSmall(ScreenMinX, ScreenMinY)
    ensures r.Ok? ==> r.value == sz
  {
    if sz.maxX < ScreenMinX || sz.maxY < ScreenMinY then Err(ScreenTooSmall(ScreenMinX, ScreenMinY))
    else Ok(sz)
  }

  /** In terms of the terminal itself the check wants 80 columns and 26 rows. */
  lemma SizeCheckOnTerminal(rows: int, cols: int)
    ensures CheckMinScreenSize(UpdateMaxSize(rows, cols)).Ok? <==> cols >= 80 && rows >= 26
  {
  }
}

=== FILE: model.dfy ===
/**
 The data model of the dashboard: inventory nodes, metric samples, the three
 metric families and the `Screen` object's mutable fields as one immutable
 record, plus Python's list indexing.
 */
module Model {
  import opened Wrappers

  /** Clock readings (`datetime.now()`) are opaque instants supplied by the caller. */
  type Time = int

  /** An inventory entry as returned by the node-list call. */
  datatype Node = Node(
    id: string,
    name: string,
    ipaddress: string,
    providerName: string,
    status: string,
    tags: seq<string>)

  /** One `{'name': ..., 'value': ...}` entry of a live-data answer. */
  datatype Sample = Sample(name: string, value: real)

  /** The metric families drawn as charts. */
  datatype Family = Cpu | Mem | Disk

  const AllFamilies: set<Family> := {Cpu, Mem, Disk}

  /** Whether a background metrics thread is alive, and for which node it fetches. */
  datatype MetricsFetch = NoFetch | InFlight(nodeId: string)

  /**
   The fields of `Screen` that the refresh logic reads and writes.
   `listFetchInFlight` and `metricsFetch` stand for `is_alive()` of the two
   thread objects.
   */
  datatype State = State(
    nodes: seq<Node>,
    cursorPos: int,
    nodeMetrics: map<Family, seq<Sample>>,
    updatingMetrics: bool,
    lastUpdated: Option<Time>,
    listFetchInFlight: bool,
    metricsFetch: MetricsFetch)

  /** The state `Screen.__init__` builds before `run` starts. */
  const Init: State := State([], 0, map[], false, None, false, NoFetch)

  /**
   Python's `xs[i]`: non-negative indices count from the front, negative ones
   from the back, anything else raises `IndexError` (here `None`).
   */
  function PyIndex<T>(xs: seq<T>, i: int): (r: Option<T>)
    ensures r.Some? <==> -|xs| <= i < |xs|
    ensures 0 <= i < |xs| ==> r == Some(xs[i])
    ensures -|xs| <= i < 0 ==> r == Some(xs[|xs| + i])
  {
    if 0 <= i < |xs| then Some(xs[i])
    else if -|xs| <= i < 0 then Some(xs[|xs| + i])
    else None
  }

  /** `nodes[cursor_pos]['id']`, or `None` where that expression raises. */
  function SelectedId(s: State): (r: Option<string>)
    ensures r.Some? <==> -|s.nodes| <= s.cursorPos < |s.nodes|
    ensures 0 <= s.cursorPos < |s.nodes| ==> r == Some(s.nodes[s.cursorPos].id)
    ensures -|s.nodes| <= s.cursorPos < 0 ==> r == Some(s.nodes[|s.nodes| + s.cursorPos].id)
  {
    match PyIndex(s.nodes, s.cursorPos)
    case Some(n) => Some(n.id)
    case None => None
  }

  /**
   The metrics fields are written together: either nothing has been fetched
   yet, or all three families are present and a timestamp exists.
   */
  predicate MetricsConsistent(s: State) {
    || (s.nodeMetrics == map[] && s.lastUpdated.None?)
    || (s.nodeMetrics.Keys == AllFamilies && s.lastUpdated.Some?)
  }
}

=== FILE: screen.dfy ===
/**
 The `Screen` object's control logic: input events, cursor movement, the
 guards that start the two background fetches, the tick counters of `run`
 and the decision of what the node panel shows. Drawing itself is left to
 the terminal and not modelled.
 */
module Screen {
  import opened Wrappers
  import opened Model
  import Layout
  import Chart

  /** Redraws per second (`1 / SCREEN_REDRAW_INTERVAL`). */
  const TicksPerSecond: int := 10
  const NodeListUpdateInterval: int := 30
  const NodeMetricsUpdateInterval: int := 5
  /** Loop iterations between two node-list refreshes. */
  const NodeListTicks: int := NodeListUpdateInterval * TicksPerSecond
  /** Loop iterations between two metrics refreshes. */
  const MetricsTicks: int := NodeMetricsUpdateInterval * TicksPerSecond

  /** The curses movement keys `KEY_UP`, `KEY_DOWN`, `KEY_PPAGE`, `KEY_NPAGE`. */
  datatype Key = Up | Down | PageUp | PageDown

  /**
   What `getch` returned: a character code in `(0, 256)`, a movement key,
   `KEY_RESIZE`, or anything else (including "no input").
   */
  datatype Event = Char(c: char) | Move(key: Key) | Resize | Other

  /** How a step of the main loop ends: it goes on, the user quit, or an exception ended `run`. */
  datatype Outcome<T> = Continue(value: T) | Quit | Crash(error: Error)

  // ---------------------------------------------------------------------------
  // Cursor movement

  /**
   `_handle_movement_key`'s cursor update over a table of `rowCount` lines:
   up and down step by one but stop at the first and last line, page-up
   jumps to the first line and page-down to the last.
   */
  function MoveCursor(cursor: int, key: Key, rowCount: int): (r: int)
    ensures key == Up ==> (if cursor > 0 then r == cursor - 1 else r == cursor)
    ensures key == Down ==> (if cursor < rowCount - 1 then r == cursor + 1 else r == cursor)
    ensures key == PageUp ==> r == 0
    ensures key == PageDown ==> r == rowCount - 1
    ensures (key == Up || key == Down) && 0 <= cursor < rowCount ==> 0 <= r < rowCount
  {
    var maxCursorPos := rowCount - 1;
    match key
    case Up => if cursor > 0 then cursor - 1 else cursor
    case Down => if cursor < maxCursorPos then cursor + 1 else cursor
    case PageUp => 0
    case PageDown => maxCursorPos
  }

  /** Every movement key keeps a cursor inside a non-empty table inside it. */
  lemma MoveCursorStaysInTable(cursor: int, key: Key, rowCount: int)
    requires 0 <= cursor < rowCount
    ensures 0 <= MoveCursor(cursor, key, rowCount) < rowCount
  {
  }

  /** Down then up comes back to the starting line unless down was stopped at the last line. */
  lemma UpUndoesDown(cursor: int, rowCount: int)
    requires 0 <= cursor < rowCount - 1
    ensures MoveCursor(MoveCursor(cursor, Down, rowCount), Up, rowCount) == cursor
  {
  }

  /** Page-down on an empty table (no line drawn yet) leaves the cursor at -1. */
  lemma PageDownOnEmptyTable(cursor: int)
    ensures MoveCursor(cursor, PageDown, 0) == -1
  {
  }

  // ---------------------------------------------------------------------------
  // Starting the background fetches

  /**
   `_update_node_metrics`: when no metrics thread is alive and there are
   nodes, a fetch starts for the selected node's id. Reading that id raises
   `IndexError` when the cursor lies outside the node list.
   */
  function UpdateNodeMetrics(s: State): (r: Outcome<State>)
    ensures !r.Quit?
    ensures r.Crash? <==> s.metricsFetch.NoFetch? && |s.nodes| > 0 && SelectedId(s).None?
    ensures r.Crash? ==> r.error == IndexOutOfRange(s.cursorPos)
    ensures r.Continue? && s.metricsFetch.NoFetch? && |s.nodes| > 0 ==>
      r.value == s.(metricsFetch := InFlight(SelectedId(s).value))
    ensures s.metricsFetch.InFlight? || |s.nodes| == 0 ==> r == Continue(s)
  {
    if s.metricsFetch.NoFetch? && |s.nodes| > 0 then
      match PyIndex(s.nodes, s.cursorPos)
      case None => Crash(IndexOutOfRange(s.cursorPos))
      case Some(node) => Continue(s.(metricsFetch := InFlight(node.id)))
    else Continue(s)
  }

  /** `_update_node_list`: a node-list fetch starts unless one is already running. */
  function UpdateNodeList(s: State): (r: State)
    ensures r.listFetchInFlight
    ensures r.(listFetchInFlight := s.listFetchInFlight) == s
  {
    if s.listFetchInFlight then s else s.(listFetchInFlight := true)
  }

  // ---------------------------------------------------------------------------
  // Input events

  /** `_handle_key_event`: `u` asks for a metrics fetch, `q` and `Q` quit, other characters do nothing. */
  function HandleKeyEvent(s: State, c: char): (r: Outcome<State>)
    ensures r.Quit? <==> c == 'q' || c == 'Q'
    ensures c == 'u' ==> r == UpdateNodeMetrics(s)
    ensures c != 'u' && c != 'q' && c != 'Q' ==> r == Continue(s)
  {
    if c == 'u' then UpdateNodeMetrics(s)
    else if c == 'q' || c == 'Q' then Quit
    else Continue(s)
  }

  /**
   `_handle_movement_key` over a table of `rowCount` lines: the cursor moves,
   `updating_metrics` is raised and a metrics fetch is requested for the
   newly selected node.
   */
  function HandleMovementKey(s: State, key: Key, rowCount: int): (r: Outcome<State>)
    ensures !r.Quit?
    ensures r.Continue? ==> r.value.cursorPos == MoveCursor(s.cursorPos, key, rowCount) && r.value.updatingMetrics
    ensures r.Continue? ==> r.value.nodes == s.nodes && r.value.nodeMetrics == s.nodeMetrics
                            && r.value.lastUpdated == s.lastUpdated
    ensures r.Continue? && s.metricsFetch.NoFetch? && |s.nodes| > 0 ==>
      SelectedId(r.value).Some? && r.value.metricsFetch == InFlight(SelectedId(r.value).value)
    ensures s.metricsFetch.InFlight? ==> r.Continue? && r.value.metricsFetch == s.metricsFetch
    ensures r.Crash? <==>
      s.metricsFetch.NoFetch? && |s.nodes| > 0 && PyIndex(s.nodes, MoveCursor(s.cursorPos, key, rowCount)).None?
    ensures r.Crash? ==> r.error == IndexOutOfRange(MoveCursor(s.cursorPos, key, rowCount))
    ensures r.Continue? ==> r.value.listFetchInFlight == s.listFetchInFlight
    ensures r.Continue? && (s.metricsFetch.InFlight? || |s.nodes| == 0) ==> r.value.metricsFetch == s.metricsFetch
  {
    var moved := s.(cursorPos := MoveCursor(s.cursorPos, key, rowCount), updatingMetrics := true);
    UpdateNodeMetrics(moved)
  }

  /** Dispatch of one `getch` result; `size` is the usable screen a resize redraw checks. */
  function HandleEvent(s: State, ev: Event, rowCount: int, size: Layout.Size): (r: Outcome<State>)
    ensures r.Quit? <==> ev == Char('q') || ev == Char('Q')
    ensures r.Continue? ==> r.value.nodes == s.nodes && r.value.nodeMetrics == s.nodeMetrics
                            && r.value.lastUpdated == s.lastUpdated
                            && r.value.listFetchInFlight == s.listFetchInFlight
    ensures ev.Char? ==> r == HandleKeyEvent(s, ev.c)
    ensures ev.Move? ==> r == HandleMovementKey(s, ev.key, rowCount)
    ensures ev == Resize ==>
      && (r.Crash? <==> size.maxX < Layout.ScreenMinX || size.maxY < Layout.ScreenMinY)
      && (r.Crash? ==> r.error == ScreenTooSmall(Layout.ScreenMinX, Layout.ScreenMinY))
      && (!r.Crash? ==> r == Continue(s))
    ensures ev == Other ==> r == Continue(s)
  {
    match ev
    case Char(c) => HandleKeyEvent(s, c)
    case Move(key) => HandleMovementKey(s, key, rowCount)
    case Resize =>
      (match Layout.CheckMinScreenSize(size)
       case Err(e) => Crash(e)
       case Ok(_) => Continue(s))
    case Other => Continue(s)
  }

  // ---------------------------------------------------------------------------
  // Tick counters of `run`

  /** The loop counters `i` (node list) and `j` (metrics). */
  datatype Counters = Counters(list: int, metrics: int)

  const InitCounters: Counters := Counters(1, 1)

  predicate CountersInRange(c: Counters) {
    1 <= c.list <= NodeListTicks && 1 <= c.metrics <= MetricsTicks
  }

  /** Which refreshes one loop iteration fires, and the counters after it. */
  datatype TickResult = TickResult(next: Counters, refreshList: bool, refreshMetrics: bool)

  /**
   The end of one iteration of `run`: a counter that reached its interval
   fires its refresh and restarts, then both counters advance by one.
   */
  function Tick(c: Counters): (r: TickResult)
    ensures r.refreshList <==> c.list == NodeListTicks
    ensures r.refreshMetrics <==> c.metrics == MetricsTicks
    ensures CountersInRange(c) ==> CountersInRange(r.next)
  {
    var refreshList := c.list == NodeListTicks;
    var refreshMetrics := c.metrics == MetricsTicks;
    var i := if refreshList then 0 else c.list;
    var j := if refreshMetrics then 0 else c.metrics;
    TickResult(Counters(i + 1, j + 1), refreshList, refreshMetrics)
  }

  /** The counters after `n` iterations of `run`. */
  function CountersAfter(n: nat): Counters {
    if n == 0 then InitCounters else Tick(CountersAfter(n - 1)).next
  }

  /** After `n` iterations the counters read `n mod 300 + 1` and `n mod 50 + 1`. */
  lemma {:induction false} CountersClosedForm(n: nat)
    ensures CountersAfter(n) == Counters(n % NodeListTicks + 1, n % MetricsTicks + 1)
  {
    if n > 0 {
      CountersClosedForm(n - 1);
      StepCounts(n - 1, NodeListTicks);
      StepCounts(n - 1, MetricsTicks);
    }
  }

  /**
   Iteration `k` (counting from 1) refreshes the node list exactly when `k`
   is a multiple of 300 and the metrics exactly when it is a multiple of 50.
   */
  lemma RefreshSchedule(k: nat)
    requires k >= 1
    ensures Tick(CountersAfter(k - 1)).refreshList <==> k % NodeListTicks == 0
    ensures Tick(CountersAfter(k - 1)).refreshMetrics <==> k % MetricsTicks == 0
    ensures CountersInRange(CountersAfter(k))
  {
    CountersClosedForm(k - 1);
    CountersClosedForm(k);
  }

  /** Runs `n` iterations of the counters and counts the refreshes they fire. */
  method CountRefreshes(n: nat) returns (listRefreshes: nat, metricsRefreshes: nat)
    ensures listRefreshes == n / NodeListTicks
    ensures metricsRefreshes == n / MetricsTicks
  {
    var c := InitCounters;
    listRefreshes, metricsRefreshes := 0, 0;
    var k := 0;
    while k < n
      invariant 0 <= k <= n
      invariant c == Counters(k % NodeListTicks + 1, k % MetricsTicks + 1)
      invariant listRefreshes == k / NodeListTicks
      invariant metricsRefreshes == k / MetricsTicks
    {
      var t := Tick(c);
      if t.refreshList {
        listRefreshes := listRefreshes + 1;
      }
      if t.refreshMetrics {
        metricsRefreshes := metricsRefreshes + 1;
      }
      StepCounts(k, NodeListTicks);
      StepCounts(k, MetricsTicks);
      c := t.next;
      k := k + 1;
    }
  }

  /** How `k mod d` and `k div d` move when `k` grows by one. */
  lemma StepCounts(k: nat, d: int)
    requires d == NodeListTicks || d == MetricsTicks
    ensures (k + 1) % d == (if k % d == d - 1 then 0 else k % d + 1)
    ensures (k + 1) / d == (if k % d == d - 1 then k / d + 1 else k / d)
  {
    var q, m := k / d, k % d;
    assert k == q * d + m && 0 <= m < d;
    if m == d - 1 {
      DivModUnique(k + 1, d, q + 1, 0);
    } else {
      DivModUnique(k + 1, d, q, m + 1);
    }
  }

  /** Quotient and remainder are the only pair that rebuilds `n`. */
  lemma DivModUnique(n: int, d: int, q: int, m: int)
    requires d == NodeListTicks || d == MetricsTicks
    requires n == q * d + m && 0 <= m < d
    ensures n / d == q && n % d == m
  {
    if d == NodeListTicks {
      assert n == q * 300 + m;
    } else {
      assert n == q * 50 + m;
    }
  }

  // ---------------------------------------------------------------------------
  // One iteration of `run`

  datatype Loop = Loop(state: State, ticks: Counters)

  /** `run`'s first action: a node-list fetch is started before the loop. */
  function Start(s: State): (l: Loop)
    ensures l.state.listFetchInFlight && l.ticks == InitCounters
    ensures l.state.(listFetchInFlight := s.listFetchInFlight) == s
  {
    Loop(UpdateNodeList(s), InitCounters)
  }

  /**
   One iteration of `run` on a terminal of `rows` by `cols`: the redraw's size
   check, one input event over the `rowCount` table lines drawn, then the
   counter-driven refreshes. The loop itself never writes the fields the
   threads own: `nodes`, `node_metrics` and `last_updated`.
   */
  function Iteration(l: Loop, rows: int, cols: int, ev: Event, rowCount: int): (r: Outcome<Loop>)
    ensures r == Crash(ScreenTooSmall(Layout.ScreenMinX, Layout.ScreenMinY)) <==> cols < 80 || rows < 26
    ensures r.Continue? ==> r.value.ticks == Tick(l.ticks).next
    ensures r.Continue? ==> r.value.state.nodes == l.state.nodes
                            && r.value.state.nodeMetrics == l.state.nodeMetrics
                            && r.value.state.lastUpdated == l.state.lastUpdated
    ensures r.Continue? && Tick(l.ticks).refreshList ==> r.value.state.listFetchInFlight
    ensures r.Continue? && Tick(l.ticks).refreshMetrics && |l.state.nodes| > 0 ==> r.value.state.metricsFetch.InFlight?
    ensures r.Continue? && l.state.updatingMetrics ==> r.value.state.updatingMetrics
    ensures cols >= 80 && rows >= 26 && (ev == Char('q') || ev == Char('Q')) ==> r.Quit?
    ensures r.Quit? ==> ev == Char('q') || ev == Char('Q')
    ensures r.Continue? ==>
      r.value.state.cursorPos == (if ev.Move? then MoveCursor(l.state.cursorPos, ev.key, rowCount) else l.state.cursorPos)
    ensures r.Continue? && r.value.state.metricsFetch != l.state.metricsFetch ==>
      r.value.state.metricsFetch.InFlight? && SelectedId(r.value.state) == Some(r.value.state.metricsFetch.nodeId)
    ensures r.Continue? && !Tick(l.ticks).refreshList ==> r.value.state.listFetchInFlight == l.state.listFetchInFlight
    ensures r.Continue? && !Tick(l.ticks).refreshMetrics && !ev.Move? && ev != Char('u') ==>
      r.value.state.metricsFetch == l.state.metricsFetch
    ensures r.Crash? && cols >= 80 && rows >= 26 ==>
      && r.error.IndexOutOfRange?
      && l.state.metricsFetch.NoFetch? && |l.state.nodes| > 0
      && (ev.Move? || ev == Char('u') || Tick(l.ticks).refreshMetrics)
  {
    var size := Layout.UpdateMaxSize(rows, cols);
    match Layout.CheckMinScreenSize(size)
    case Err(e) => Crash(e)
    case Ok(_) =>
      match HandleEvent(l.state, ev, rowCount, size)
      case Quit => Quit
      case Crash(e) => Crash(e)
      case Continue(s1) =>
        match Refresh(s1, Tick(l.ticks))
        case Continue(s2) => Continue(Loop(s2, Tick(l.ticks).next))
        case Quit => Quit
        case Crash(e) => Crash(e)
  }

  /**
   The counter-driven end of an iteration: the node-list refresh when its
   counter fired, then the metrics refresh when its counter fired. Nothing
   else changes, and only the metrics refresh can raise.
   */
  function Refresh(s: State, t: TickResult): (r: Outcome<State>)
    ensures !r.Quit?
    ensures r.Crash? <==> t.refreshMetrics && s.metricsFetch.NoFetch? && |s.nodes| > 0 && SelectedId(s).None?
    ensures r.Crash? ==> r.error == IndexOutOfRange(s.cursorPos)
    ensures r.Continue? ==>
      && r.value.nodes == s.nodes && r.value.cursorPos == s.cursorPos
      && r.value.nodeMetrics == s.nodeMetrics && r.value.lastUpdated == s.lastUpdated
      && r.value.updatingMetrics == s.updatingMetrics
      && r.value.listFetchInFlight == (t.refreshList || s.listFetchInFlight)
    ensures r.Continue? && !(t.refreshMetrics && s.metricsFetch.NoFetch? && |s.nodes| > 0) ==>
      r.value.metricsFetch == s.metricsFetch
    ensures r.Continue? && t.refreshMetrics && s.metricsFetch.NoFetch? && |s.nodes| > 0 ==>
      r.value.metricsFetch == InFlight(SelectedId(s).value)
  {
    var s1 := if t.refreshList then UpdateNodeList(s) else s;
    if t.refreshMetrics then UpdateNodeMetrics(s1) else Continue(s1)
  }

  // ---------------------------------------------------------------------------
  // The node panel

  /** What `_draw_node_data` shows in the upper part of the screen. */
  datatype Panel =
    | Placeholder                  // '/' in every field
    | LoadingPanel(node: Node)     // the node with 'loading...' charts
    | ChartPanel(node: Node, cpu: Chart.ChartView, mem: Chart.ChartView, disk: Chart.ChartView)

  /**
   `_draw_node_data` on a screen `maxX` wide: the selected node with its three
   charts once metrics of all families are present, "loading..." while
   `updating_metrics` is raised, placeholders otherwise. Indexing the selected
   node and building each chart can raise.
   */
  function NodePanel(s: State, maxX: int): (r: Result<Panel>)
    ensures r.Ok? && r.value.Placeholder? <==> |s.nodes| == 0 || !(AllFamilies <= s.nodeMetrics.Keys)
    ensures r.Ok? && r.value.LoadingPanel? <==>
      |s.nodes| > 0 && AllFamilies <= s.nodeMetrics.Keys && s.updatingMetrics && SelectedId(s).Some?
    ensures r.Ok? && r.value.ChartPanel? ==> !s.updatingMetrics && Some(r.value.node) == PyIndex(s.nodes, s.cursorPos)
    ensures r.Ok? && r.value.LoadingPanel? ==> Some(r.value.node) == PyIndex(s.nodes, s.cursorPos)
    ensures |s.nodes| > 0 && AllFamilies <= s.nodeMetrics.Keys && SelectedId(s).None? ==>
      r == Err(IndexOutOfRange(s.cursorPos))
    ensures |s.nodes| > 0 && AllFamilies <= s.nodeMetrics.Keys && SelectedId(s).Some? && !s.updatingMetrics ==>
      var cpu := Chart.VerticalChart(Cpu, s.nodeMetrics[Cpu], maxX);
      var mem := Chart.VerticalChart(Mem, s.nodeMetrics[Mem], maxX);
      var disk := Chart.VerticalChart(Disk, s.nodeMetrics[Disk], maxX);
      && (r.Ok? <==> cpu.Ok? && mem.Ok? && disk.Ok?)
      && (r.Ok? ==> r.value == ChartPanel(PyIndex(s.nodes, s.cursorPos).value, cpu.value, mem.value, disk.value))
      && (r.Err? ==> r.error == (if cpu.Err? then cpu.error else if mem.Err? then mem.error else disk.error))
  {
    if |s.nodes| > 0 && Cpu in s.nodeMetrics && Mem in s.nodeMetrics && Disk in s.nodeMetrics then
      match PyIndex(s.nodes, s.cursorPos)
      case None => Err(IndexOutOfRange(s.cursorPos))
      case Some(node) =>
        if s.updatingMetrics then Ok(LoadingPanel(node))
        else
          match Chart.VerticalChart(Cpu, s.nodeMetrics[Cpu], maxX)
          case Err(e) => Err(e)
          case Ok(cpu) =>
            match Chart.VerticalChart(Mem, s.nodeMetrics[Mem], maxX)
            case Err(e) => Err(e)
            case Ok(mem) =>
              match Chart.VerticalChart(Disk, s.nodeMetrics[Disk], maxX)
              case Err(e) => Err(e)
              case Ok(disk) => Ok(ChartPanel(node, cpu, mem, disk))
    else Ok(Placeholder)
  }
}

=== FILE: system.dfy ===
/**
 The whole dashboard as a transition system: main-loop iterations and the
 completions of the two background threads interleave, each one atomic.
 `Next` composes the threads as written; `NextCorrected` composes the
 corrected metrics completion (see `Threads.NodeMetricsRunCorrected`). The
 lemmas at the end replay scenarios against the step as written.
 */
module System {
  import opened Wrappers
  import opened Model
  import opened Screen
  import Threads
  import Layout
  import Chart
  import Formatting

  datatype Action =
    | LoopStep(rows: int, cols: int, ev: Event, rowCount: int)
    | NodeListDone(list: Threads.NodeListResult)
    | MetricsDone(metrics: Threads.MetricsResult, now: Time)

  /** A thread can only complete while it is alive. */
  predicate Enabled(l: Loop, a: Action) {
    match a
    case LoopStep(_, _, _, _) => true
    case NodeListDone(_) => l.state.listFetchInFlight
    case MetricsDone(_, _) => l.state.metricsFetch.InFlight?
  }

  /**
   One atomic step of the program as written: a main-loop iteration, or the
   completion of one of the background threads.
   */
  function Next(l: Loop, a: Action): (r: Outcome<Loop>)
    requires Enabled(l, a)
    ensures a.NodeListDone? || a.MetricsDone? ==> r.Continue? && r.value.ticks == l.ticks
    ensures r.Continue? && (r.value.state.nodeMetrics != l.state.nodeMetrics || r.value.state.lastUpdated != l.state.lastUpdated) ==>
      a.MetricsDone? && SelectedId(l.state) == Some(l.state.metricsFetch.nodeId)
    ensures a.MetricsDone? && a.metrics.Fetched? && SelectedId(l.state).Some? ==> !r.value.state.updatingMetrics
    ensures a.LoopStep? ==> r == Iteration(l, a.rows, a.cols, a.ev, a.rowCount)
  {
    match a
    case LoopStep(rows, cols, ev, rowCount) => Iteration(l, rows, cols, ev, rowCount)
    case NodeListDone(list) => Continue(l.(state := Threads.NodeListRun(l.state, list)))
    case MetricsDone(metrics, now) => Continue(l.(state := Threads.NodeMetricsRun(l.state, metrics, now)))
  }

  /**
   The same system with the corrected metrics completion: once raised,
   `updating_metrics` comes down only together with metrics fetched for the
   node selected at that moment.
   */
  function NextCorrected(l: Loop, a: Action): (r: Outcome<Loop>)
    requires Enabled(l, a)
    ensures a.NodeListDone? || a.MetricsDone? ==> r.Continue? && r.value.ticks == l.ticks
    ensures r.Continue? && (r.value.state.nodeMetrics != l.state.nodeMetrics || r.value.state.lastUpdated != l.state.lastUpdated) ==>
      a.MetricsDone? && SelectedId(l.state) == Some(l.state.metricsFetch.nodeId)
    ensures r.Continue? && l.state.updatingMetrics && !r.value.state.updatingMetrics ==>
      && a.MetricsDone? && a.metrics.Fetched?
      && SelectedId(r.value.state) == Some(l.state.metricsFetch.nodeId)
      && r.value.state.nodeMetrics == Threads.MetricsMap(a.metrics.cpu, a.metrics.mem, a.metrics.disk)
  {
    match a
    case LoopStep(rows, cols, ev, rowCount) => Iteration(l, rows, cols, ev, rowCount)
    case NodeListDone(list) => Continue(l.(state := Threads.NodeListRun(l.state, list)))
    case MetricsDone(metrics, now) => Continue(l.(state := Threads.NodeMetricsRunCorrected(l.state, metrics, now)))
  }

  /** Every state reachable from the start keeps its counters in range and its metrics fields consistent. */
  predicate Inv(l: Loop) {
    CountersInRange(l.ticks) && MetricsConsistent(l.state)
  }

  lemma InitSatisfiesInv()
    ensures Inv(Start(Init))
  {
  }

  /** Both the program as written and the corrected one keep the invariant. */
  lemma NextPreservesInv(l: Loop, a: Action)
    requires Inv(l) && Enabled(l, a)
    ensures Next(l, a).Continue? ==> Inv(Next(l, a).value)
    ensures NextCorrected(l, a).Continue? ==> Inv(NextCorrected(l, a).value)
  {
    match a
    case LoopStep(rows, cols, ev, rowCount) =>
    case NodeListDone(list) =>
    case MetricsDone(metrics, now) =>
      Threads.CompletionsKeepMetricsConsistent(l.state, Threads.ListFailed, metrics, now);
  }

  /**
   A movement key on a screen that passes the size check, followed by a
   successful fetch, leaves the newly selected node's metrics on the panel:
   `last_updated` is stamped, all three families are present and the panel
   no longer shows "loading...".
   */
  lemma MoveThenFetchShowsMetrics(l: Loop, rows: int, cols: int, key: Key, rowCount: int,
                                  cpu: seq<Sample>, mem: seq<Sample>, disk: seq<Sample>, now: Time, maxX: int)
    requires rows >= 26 && cols >= 80
    requires l.state.metricsFetch.NoFetch?
    requires 0 <= l.state.cursorPos < rowCount <= |l.state.nodes|
    ensures var r1 := Next(l, LoopStep(rows, cols, Move(key), rowCount));
      && r1.Continue?
      && r1.value.state.metricsFetch.InFlight?
      && var r2 := Next(r1.value, MetricsDone(Threads.Fetched(cpu, mem, disk), now));
      && r2.Continue?
      && r2.value.state.lastUpdated == Some(now)
      && r2.value.state.nodeMetrics.Keys == AllFamilies
      && !r2.value.state.updatingMetrics
      && !(Screen.NodePanel(r2.value.state, maxX).Ok? && Screen.NodePanel(r2.value.state, maxX).value.LoadingPanel?)
  {
    var cursor := MoveCursor(l.state.cursorPos, key, rowCount);
    MoveCursorStaysInTable(l.state.cursorPos, key, rowCount);
    var moved := l.state.(cursorPos := cursor, updatingMetrics := true);
    assert SelectedId(moved) == Some(l.state.nodes[cursor].id);
    var r1 := Next(l, LoopStep(rows, cols, Move(key), rowCount));
    assert r1.Continue?;
    assert r1.value.state.cursorPos == cursor;
    assert r1.value.state.metricsFetch == InFlight(l.state.nodes[cursor].id);
  }

  /**
   The race guard in the composed system: a fetch for the node selected when
   it started, completing after the cursor moved to a node with another id,
   leaves `node_metrics` and `last_updated` as they were.
   */
  lemma MovedSelectionDiscardsFetch(l: Loop, metrics: Threads.MetricsResult, now: Time)
    requires l.state.metricsFetch.InFlight?
    requires SelectedId(l.state) != Some(l.state.metricsFetch.nodeId)
    ensures Next(l, MetricsDone(metrics, now)).Continue?
    ensures Next(l, MetricsDone(metrics, now)).value.state.nodeMetrics == l.state.nodeMetrics
    ensures Next(l, MetricsDone(metrics, now)).value.state.lastUpdated == l.state.lastUpdated
  {
  }

  // ---------------------------------------------------------------------------
  // Scenarios replayed against the code as written

  const NodeA: Node := Node("a", "alpha", "10.0.0.1", "p", "running", [])
  const NodeB: Node := Node("b", "beta", "10.0.0.2", "p", "running", [])

  /** Samples of node A that report every metric the three charts need. */
  const SamplesA: Threads.MetricsResult := Threads.Fetched(
    [Sample("cpu_user", 5.0), Sample("cpu_sys", 3.0), Sample("cpu_idle", 92.0)],
    [Sample("mem_used", 1024.0), Sample("mem_free", 2048.0), Sample("mem_percent_used", 33.0)],
    [Sample("bsize", 4096.0), Sample("bfree", 1000.0), Sample("blocks", 2000.0), Sample("capacity", 50.0)])

  /** Node A's CPU samples give a chart at 8 %. */
  lemma SamplesACpuChart(maxX: int)
    ensures Chart.VerticalChart(Cpu, SamplesA.cpu, maxX).Ok?
    ensures Chart.VerticalChart(Cpu, SamplesA.cpu, maxX).value.percent == 8
  {
    var cpu := SamplesA.cpu;
    assert cpu[0].name == "cpu_user" && cpu[1].name == "cpu_sys";
    Chart.CpuChartValues(cpu, maxX, 2);
    Formatting.IntOfWhole(92);
  }

  /** Node A's memory samples give a chart. */
  lemma SamplesAMemChart(maxX: int)
    ensures Chart.VerticalChart(Mem, SamplesA.mem, maxX).Ok?
  {
    var mem := SamplesA.mem;
    assert Chart.Reported(mem, "mem_used") by { assert mem[0].name == "mem_used"; }
    assert Chart.Reported(mem, "mem_free") by { assert mem[1].name == "mem_free"; }
    assert Chart.Reported(mem, "mem_percent_used") by { assert mem[2].name == "mem_percent_used"; }
    assert Chart.WantedMetrics(Mem) == ["mem_used", "mem_free", "mem_percent_used"];
    Chart.ChartShown(Mem, mem, maxX);
  }

  /** Node A's disk samples give a chart. */
  lemma SamplesADiskChart(maxX: int)
    ensures Chart.VerticalChart(Disk, SamplesA.disk, maxX).Ok?
  {
    var disk := SamplesA.disk;
    assert Chart.Reported(disk, "bsize") by { assert disk[0].name == "bsize"; }
    assert Chart.Reported(disk, "bfree") by { assert disk[1].name == "bfree"; }
    assert Chart.Reported(disk, "blocks") by { assert disk[2].name == "blocks"; }
    assert Chart.Reported(disk, "capacity") by { assert disk[3].name == "capacity"; }
    assert Chart.WantedMetrics(Disk) == ["bsize", "bfree", "blocks", "capacity"];
    Chart.ChartShown(Disk, disk, maxX);
  }

  /** With node B selected, the flag down and node A's samples stored, the panel charts A's samples under B. */
  lemma PanelShowsSamplesA(s: State, maxX: int)
    requires s.nodes == [NodeA, NodeB] && s.cursorPos == 1 && !s.updatingMetrics
    requires s.nodeMetrics == Threads.MetricsMap(SamplesA.cpu, SamplesA.mem, SamplesA.disk)
    ensures Screen.NodePanel(s, maxX).Ok?
    ensures Screen.NodePanel(s, maxX).value.ChartPanel?
    ensures Screen.NodePanel(s, maxX).value.node == NodeB
    ensures Screen.NodePanel(s, maxX).value.cpu.percent == 8
  {
    assert PyIndex(s.nodes, s.cursorPos) == Some(NodeB);
    assert SelectedId(s).Some? && AllFamilies <= s.nodeMetrics.Keys;
    assert s.nodeMetrics[Cpu] == SamplesA.cpu && s.nodeMetrics[Mem] == SamplesA.mem && s.nodeMetrics[Disk] == SamplesA.disk;
    SamplesACpuChart(maxX);
    SamplesAMemChart(maxX);
    SamplesADiskChart(maxX);
  }

  /**
   The selection moves while a fetch is in flight. Node A's metrics were
   stored by an earlier fetch, a second fetch for A is running, and the user
   presses down to select B. When that fetch returns, the step as written
   discards it but still lowers `updating_metrics`, so the panel shows B with
   A's charts (CPU at 8 %) instead of "loading...". The corrected step keeps
   B loading.
   */
  lemma StaleChartsAfterDiscard(maxX: int)
    ensures var s0 := State([NodeA, NodeB], 0, map[], false, None, false, InFlight("a"));
      var s1 := Threads.NodeMetricsRun(s0, SamplesA, 1);
      var s2 := s1.(metricsFetch := InFlight("a"));
      var s3 := HandleEvent(s2, Move(Down), 2, Layout.Size(24, 80));
      && s3.Continue?
      && SelectedId(s3.value) == Some("b")
      && var s4 := Threads.NodeMetricsRun(s3.value, SamplesA, 2);
      && s4.nodeMetrics == Threads.MetricsMap(SamplesA.cpu, SamplesA.mem, SamplesA.disk)
      && !s4.updatingMetrics
      && Screen.NodePanel(s4, maxX).Ok?
      && Screen.NodePanel(s4, maxX).value.ChartPanel?
      && Screen.NodePanel(s4, maxX).value.node == NodeB
      && Screen.NodePanel(s4, maxX).value.cpu.percent == 8
      && Screen.NodePanel(Threads.NodeMetricsRunCorrected(s3.value, SamplesA, 2), maxX)
         == Ok(Screen.LoadingPanel(NodeB))
  {
    var s0 := State([NodeA, NodeB], 0, map[], false, None, false, InFlight("a"));
    assert SelectedId(s0) == Some("a");
    var s1 := Threads.NodeMetricsRun(s0, SamplesA, 1);
    var s2 := s1.(metricsFetch := InFlight("a"));
    var s3 := HandleEvent(s2, Move(Down), 2, Layout.Size(24, 80));
    assert s3 == Continue(s2.(cursorPos := 1, updatingMetrics := true));
    assert SelectedId(s3.value) == Some("b");
    var s4 := Threads.NodeMetricsRun(s3.value, SamplesA, 2);
    PanelShowsSamplesA(s4, maxX);
    assert PyIndex(s4.nodes, s4.cursorPos) == Some(NodeB);
  }

  /**
   Nothing clamps the cursor when the node list shrinks: with the fifth of
   five nodes selected, a refresh that returns two nodes keeps the cursor at
   4, and the next metrics request raises `IndexError`.
   */
  lemma ShrunkListLeavesCursorBehind(nodes: seq<Node>, fewer: seq<Node>)
    requires |nodes| == 5 && |fewer| == 2
    ensures var s := State(nodes, 4, map[], false, None, true, NoFetch);
      var s' := Threads.NodeListRun(s, Threads.NodeListResult.Listed(fewer));
      && s'.cursorPos == 4
      && Screen.UpdateNodeMetrics(s') == Crash(IndexOutOfRange(4))
  {
  }
}

=== FILE: threads.dfy ===
/**
 The bodies of the two background threads, each taken as one atomic step
 that runs when the fetch it started returns.
 */
module Threads {
  import opened Wrappers
  import opened Model

  /** What `connection.nodes()` gave: the node list, or an exception. */
  datatype NodeListResult = Listed(nodes: seq<Node>) | ListFailed

  /**
   What the three `live_data` calls gave: the cpu, mem and disk sample
   lists, or an exception from any one of them.
   */
  datatype MetricsResult = Fetched(cpu: seq<Sample>, mem: seq<Sample>, disk: seq<Sample>) | MetricsFailed

  /** The metrics map a completed fetch writes. */
  function MetricsMap(cpu: seq<Sample>, mem: seq<Sample>, disk: seq<Sample>): (m: map<Family, seq<Sample>>)
    ensures m.Keys == AllFamilies
    ensures m[Cpu] == cpu && m[Mem] == mem && m[Disk] == disk
  {
    map[Cpu := cpu, Mem := mem, Disk := disk]
  }

  /**
   `NodeListThread.run`: the fetched list replaces `nodes` wholesale; a
   failed fetch leaves it as it was. The thread then ends, and no other field
   changes. In particular `cursor_pos` is not brought back inside a shorter list.
   */
  function NodeListRun(s: State, result: NodeListResult): (r: State)
    requires s.listFetchInFlight
    ensures !r.listFetchInFlight
    ensures result.Listed? ==> r.nodes == result.nodes
    ensures result.ListFailed? ==> r.nodes == s.nodes
    ensures r.(nodes := s.nodes, listFetchInFlight := true) == s
  {
    var ended := s.(listFetchInFlight := false);
    match result
    case Listed(nodes) => ended.(nodes := nodes)
    case ListFailed => ended
  }

  /**
   `NodeMetricsThread.run` for the node id captured when the thread started.
   A failed fetch, or an `IndexError` while reading the selected node, ends
   the thread before anything is written. Otherwise the fetched samples and a
   timestamp are stored only if the selected node still has the captured id,
   and `updating_metrics` is lowered in either case.
   */
  function NodeMetricsRun(s: State, result: MetricsResult, now: Time): (r: State)
    requires s.metricsFetch.InFlight?
    ensures r.nodes == s.nodes && r.cursorPos == s.cursorPos && r.listFetchInFlight == s.listFetchInFlight
    ensures r.metricsFetch == NoFetch
    ensures result.Fetched? && SelectedId(s) == Some(s.metricsFetch.nodeId) ==>
      && r.nodeMetrics == MetricsMap(result.cpu, result.mem, result.disk)
      && r.lastUpdated == Some(now)
      && !r.updatingMetrics
    ensures result.Fetched? && SelectedId(s).Some? && SelectedId(s) != Some(s.metricsFetch.nodeId) ==>
      r.nodeMetrics == s.nodeMetrics && r.lastUpdated == s.lastUpdated && !r.updatingMetrics
    ensures result.MetricsFailed? || SelectedId(s).None? ==> r == s.(metricsFetch := NoFetch)
    ensures r.nodeMetrics != s.nodeMetrics || r.lastUpdated != s.lastUpdated ==>
      SelectedId(s) == Some(s.metricsFetch.nodeId)
  {
    var target := s.metricsFetch.nodeId;
    var ended := s.(metricsFetch := NoFetch);
    match result
    case MetricsFailed => ended
    case Fetched(cpu, mem, disk) =>
      match SelectedId(s)
      case None => ended
      case Some(selected) =>
        if selected == target then
          ended.(nodeMetrics := MetricsMap(cpu, mem, disk), lastUpdated := Some(now), updatingMetrics := false)
        else
          ended.(updatingMetrics := false)
  }

  /**
   The metrics completion with `updating_metrics` lowered only when the
   fetched samples are stored: a discarded result leaves the panel loading
   until a fetch for the newly selected node completes. It never lowers the
   flag without storing metrics fetched for the selected node.
   */
  function NodeMetricsRunCorrected(s: State, result: MetricsResult, now: Time): (r: State)
    requires s.metricsFetch.InFlight?
    ensures r.nodes == s.nodes && r.cursorPos == s.cursorPos && r.listFetchInFlight == s.listFetchInFlight
    ensures r.metricsFetch == NoFetch
    ensures result.Fetched? && SelectedId(s) == Some(s.metricsFetch.nodeId) ==>
      && r.nodeMetrics == MetricsMap(result.cpu, result.mem, result.disk)
      && r.lastUpdated == Some(now)
      && !r.updatingMetrics
    ensures !(result.Fetched? && SelectedId(s) == Some(s.metricsFetch.nodeId)) ==> r == s.(metricsFetch := NoFetch)
    ensures s.updatingMetrics && !r.updatingMetrics ==>
      result.Fetched? && SelectedId(r) == Some(s.metricsFetch.nodeId)
      && r.nodeMetrics == MetricsMap(result.cpu, result.mem, result.disk)
  {
    var target := s.metricsFetch.nodeId;
    var ended := s.(metricsFetch := NoFetch);
    match result
    case MetricsFailed => ended
    case Fetched(cpu, mem, disk) =>
      if SelectedId(s) == Some(target) then
        ended.(nodeMetrics := MetricsMap(cpu, mem, disk), lastUpdated := Some(now), updatingMetrics := false)
      else
        ended
  }

  /** Neither completion step breaks the consistency of the metrics fields. */
  lemma CompletionsKeepMetricsConsistent(s: State, list: NodeListResult, metrics: MetricsResult, now: Time)
    requires MetricsConsistent(s)
    ensures s.listFetchInFlight ==> MetricsConsistent(NodeListRun(s, list))
    ensures s.metricsFetch.InFlight? ==> MetricsConsistent(NodeMetricsRun(s, metrics, now))
    ensures s.metricsFetch.InFlight? ==> MetricsConsistent(NodeMetricsRunCorrected(s, metrics, now))
  {
  }
}

=== FILE: wrappers.dfy ===
/** Optional values, raised errors and results shared by every module of the dashboard model. */
module Wrappers {

  /** An optional value: Python's `None` or a present value. */
  datatype Option<+T> = None | Some(value: T)

  /** Why an operation of the dashboard raised instead of returning. */
  datatype Error =
    | MetricMissing(key: string)     // a `KeyError` on a metric dictionary
    | IndexOutOfRange(index: int)    // an `IndexError` on `nodes[cursor_pos]`
    | ScreenTooSmall(minX: int, minY: int)  // the `RuntimeError` of the size check

  /** Either the value an operation returns or the exception it raises. */
  datatype Result<+T> = Ok(value: T) | Err(error: Error)
}
